=== FILE: README.md ===
# pflash core, modelled in Dafny

pflash flashes Phoenix-RTOS images onto a target board: it drives the target
into its plo bootloader over the serial console, uploads an image into RAM with
OpenOCD, and asks plo to copy it into flash. This project models the four
deterministic pieces of that flow, with every foreign effect turned into an
explicit input or a recorded output:

- **plo handshake** (`plo.dfy`, module `Plo`): `boot_plo_naively` as a function
  of what the serial port delivers (the answer to the wake newline, then a finite
  sequence of strings returned by the reads after a reboot, one per read).
  Each read's result is an opaque string, however that read ended. Its effect is an ordered log of writes and
  reads, each tagged with the baud rate of its session. The outcome is
  `InBootloader`, `Failed(KeyError)`, or `StillWaiting` when the trace ends before
  a ready reply. The method `BootPloNaively` follows the Python loop step by
  step. It is proved equal to the declarative `Handshake`.
- **OpenOCD invocation** (`openocd.dfy`, module `OpenOcd`): `which_openocd` over
  the result of `shutil.which`; the argv of `upload_to_ram`, its flag/operand
  wire format and the `load_image` command, each with a parser that recovers
  what was encoded; the dry-run rule that no process is started. The argv has
  17 words (the binary, two `-f` pairs, six `-c` pairs), so its flags sit at
  positions 1, 3, …, 15.
- **configuration lookup** (`config.dfy`, module `Config`): `load_config_file`'s
  error mapping, `find_entry`'s first match by name, and `load_config_entry`'s
  precedence (user file, then the internal file).
- **ramdisk request message** (`ramdisk_flash.dfy`, module `RamdiskFlash`): the
  comma-joined partition list, its singular/plural label, and the logged message.

Shared modules: `Wrappers` (`Option`, `Result`), `Errors` (the exception
classes of `exceptions.py` plus the Python built-ins the core raises), `Seqs`
(first-match search), `Strings` (Python's `in` on strings, `str.join`, `str(int)`).

Facts about the code that shape the model:

- plo is recognised by the substring `plo` anywhere in the first response (plo.py:22).
- The post-reboot loop is `while 1` with no overall timeout (plo.py:34).
- A first response with neither `plo` nor `psh` raises `KeyError` at once, with no retry (plo.py:27-28).
- The OpenOCD call passes no timeout to `subprocess.run` (openocd.py:52).
- Dry mode still looks up the OpenOCD binary, so a missing binary fails even in dry mode (openocd.py:33, 49-50).

## Model

| member | source | states |
|---|---|---|
| Strings.Contains | src/pflash/plo.py:22-27 | Python's `token in text` holds exactly when the token occurs at some index of the text |
| Strings.JoinLayout | src/pflash/openocd.py:47 | `sep.join(parts)` puts part i at offset `Start(i)` with a separator after every part but the last, and has no other characters |
| Strings.JoinPreservesOrder | src/pflash/ramdisk_flash.py:10 | in a join, each part lies wholly before every later part, with at least one separator between them |
| Strings.JoinContainsEvery | src/pflash/ramdisk_flash.py:10 | every joined name is a substring of the join |
| Strings.JoinSingleton | src/pflash/ramdisk_flash.py:10 | joining one name gives that name, so the one-partition branch agrees with the join |
| Strings.Join | src/pflash/ramdisk_flash.py:10 | no contract of its own: `sep.join(parts)`, also used for the command string at openocd.py:47; `JoinLayout`, `JoinPreservesOrder`, `JoinContainsEvery` and `JoinSingleton` characterise it |
| Strings.IntToDecimal | src/pflash/openocd.py:42 | `str(addr)` is non-empty, starts with `-` exactly when `addr` is negative, and holds only digits and `-`; the digits after any sign are non-empty and have no leading zero unless `addr` is 0; `IntDecimalRoundTrip` shows it is read back as `addr` |
| Strings.NatToDecimal | src/pflash/openocd.py:42 | `str` of a non-negative int is a non-empty string of digits with no leading zero |
| Strings.IntDecimalRoundTrip | src/pflash/openocd.py:42 | parsing `str(addr)` gives back `addr`, and `str(addr)` uses only digits and `-` |
| Seqs.FirstIndex | src/pflash/config.py:62-65 | the search returns the first index whose element passes the test, or none exactly when no element passes |
| Seqs.FirstIndexConcat | src/pflash/config.py:67-78 | searching a concatenation finds a match in the front part first and looks at the back part only when the front has none |
| Plo.Handshake | src/pflash/plo.py:9-41 | dry mode succeeds with an empty log; otherwise the first action is the wake newline at the caller's baud, followed by reading the first response at that baud; among responses that decode, the only failure is KeyError |
| Plo.BootPloNaively | src/pflash/plo.py:9-41 | the step-by-step handshake yields exactly the log and outcome of the declarative `Handshake` |
| Plo.AfterReboot | src/pflash/plo.py:34-41 | the post-reboot phase ends in the bootloader exactly when some reply contains `Waiting for input`, and is otherwise still waiting; it never fails; while still waiting, its log is every reply read in order at 115200 and nothing else; `AfterRebootWrites` and `ReadyReplyEndsWait` pin the log on success |
| Plo.AwaitReady | src/pflash/plo.py:34-41 | the post-reboot `while 1` loop, reading one reply per iteration, yields exactly the reads and acknowledgement of the declarative `AfterReboot` |
| Plo.AfterRebootWrites | src/pflash/plo.py:34-41 | the post-reboot phase succeeds exactly when some reply contains `Waiting for input`, is otherwise still waiting, and writes one newline at 115200 exactly when it succeeds |
| Plo.PloPromptNeedsNoReboot | src/pflash/plo.py:22-24 | a first response containing `plo` succeeds with the wake newline as the only write, even if it also contains `psh` |
| Plo.UnrecognisedResponseFails | src/pflash/plo.py:26-28 | a first response with neither `plo` nor `psh` fails with KeyError after writing only the wake newline |
| Plo.RebootPath | src/pflash/plo.py:30-41 | after `psh`, the writes are the wake newline, one `reboot\n` at 115200, and a final newline at 115200 only on success; success holds exactly when some later reply contains `Waiting for input`, and otherwise the handshake is still waiting |
| Plo.ReadyReplyEndsWait | src/pflash/plo.py:34-41 | at the first ready reply i, replies 0..i are read at 115200 with no write between them, one newline follows, and nothing more is read |
| Plo.LaterRepliesIgnored | src/pflash/plo.py:34-41 | once the handshake has ended, extending the reply trace changes neither its outcome nor its log |
| Plo.WaitingIsPrefix | src/pflash/plo.py:34-41 | while still waiting, the log so far is a prefix of the log on any longer trace |
| OpenOcd.WhichOpenocd | src/pflash/openocd.py:12-24 | the located path is returned exactly when `which` found a non-empty one; otherwise FileNotFoundError |
| OpenOcd.RenderArgs | src/pflash/openocd.py:35-45 | options render as flag/operand pairs: even word 2k is option k's flag, odd word 2k+1 its operand |
| OpenOcd.ParseRenderArgs | src/pflash/openocd.py:35-45 | parsing the rendered options gives back the options |
| OpenOcd.RenderParseArgs | src/pflash/openocd.py:35-45 | any word list that parses as options is the rendering of what it parses to |
| OpenOcd.LoadImageCommand | src/pflash/openocd.py:42 | no contract of its own: the `load_image "<image>" <addr> bin` command; `LoadImageRoundTrip` shows the image and address can be read back from it |
| OpenOcd.UploadScript | src/pflash/openocd.py:37-44 | no contract of its own: the two config files and six commands, as options; `OpenocdCommand` pins their rendering word by word, and `CommandDecodes` shows the argv parses back to them |
| OpenOcd.LoadImageRoundTrip | src/pflash/openocd.py:42 | `load_image "<image>" <addr> bin` decodes back to the image and the address, whatever characters the image path holds |
| OpenOcd.OpenocdCommand | src/pflash/openocd.py:33-45 | the argv is 17 words: the binary, `-f` probe config, `-f` target config, then `-c` with reset_config srst_only, init, halt, load_image, resume and exit, in that order |
| OpenOcd.CommandDecodes | src/pflash/openocd.py:35-45 | the argv after the binary parses back to the upload script, and its load command decodes back to the image and address |
| OpenOcd.UploadToRam | src/pflash/openocd.py:27-53 | a missing binary fails with FileNotFoundError before anything is logged, even in dry mode; otherwise the command string interpolated into the `OpenOCD cmd = ` log line is the argv joined by single spaces; dry mode returns 0 and starts no process; otherwise exactly one process runs with that argv, and a non-zero exit raises CalledProcessError |
| Config.LoadConfigFile | src/pflash/config.py:19-41 | a missing file maps to ConfigNotFoundError, an undecodable one to InvalidConfigError, and a parsed one to its document |
| Config.Entries | src/pflash/config.py:61 | no contract of its own: `config_data.get("configuration", [])`, an absent list read as empty; `FindEntry` and `MissingUserFileIsEmpty` state what that means for the lookup |
| Config.FindEntry | src/pflash/config.py:59-65 | returns the first entry of the file's `configuration` list named as asked, none when no entry is, and an absent list counts as empty; load errors propagate |
| Config.FromInternal | src/pflash/config.py:75-83 | the internal-file lookup returns the first entry `find_entry` finds there; a missing internal file, or a parsed one with no entry of that name, gives ConfigNotFoundError; an undecodable one gives InvalidConfigError, which is not caught |
| Config.LoadConfigEntry | src/pflash/config.py:44-83 | a match in the user file is returned; a missing user file, or one with no match, falls through to exactly the internal-file lookup; an undecodable user file gives InvalidConfigError; a returned entry carries the requested name and comes from one of the two files; among the three file states modelled, only ConfigNotFoundError or InvalidConfigError can result |
| Config.UserMatchShadowsInternal | src/pflash/config.py:67-71 | a match in the user file is returned whatever state the internal file is in |
| Config.MissingUserFileIsEmpty | src/pflash/config.py:72-78 | a missing user file gives the same result as a user file with no entries |
| Config.NoMatchIsNotFound | src/pflash/config.py:76-83 | with no match in the user file (or none there) and none in the internal file (or none there), the result is ConfigNotFoundError |
| Config.LookupIsFirstMatchOfBoth | src/pflash/config.py:67-83 | when both files parse, the lookup is the first match in the user entries followed by the internal entries |
| RamdiskFlash.PartitionList | src/pflash/ramdisk_flash.py:10 | an empty request raises IndexError; any other request gives the `", "`-join of all names, including a single name |
| RamdiskFlash.PartitionLabel | src/pflash/ramdisk_flash.py:11 | the label is `partitions` exactly when more than one partition is requested, and `partition` otherwise |
| RamdiskFlash.RamdiskFlash | src/pflash/ramdisk_flash.py:8-16 | an empty request fails with IndexError before any message is formed; otherwise the message starts with `Request to flash <list> <label> using ramdisk`, where `<list>` is the `", "`-join of the names even for one name, and continues with exactly `, serial = <serial>, config = <config> root = <root>` |
| RamdiskFlash.MessageTail | src/pflash/ramdisk_flash.py:13-15 | no contract of its own: the text after the partition list; the ensures of `RamdiskFlash` fix that text, `serial`, `config` and `root` included |
| RamdiskFlash.MessageNamesPartition | src/pflash/ramdisk_flash.py:10-14 | the i-th requested name appears in the message at its own offset |
| RamdiskFlash.MessageNamesEveryPartition | src/pflash/ramdisk_flash.py:10-14 | every requested name appears in the message in request order, and exactly `, ` follows each name but the last |

## Left out

- Serial I/O through pyserial, with its read timeouts of 0.5 s, 10 s and 0.1 s, is not modelled. The port is replaced by the response trace, and there is no clock.
- Opening and closing each serial session is not logged. Each read and write carries its session's baud instead.
- Byte decoding in `read_until(...).decode()` is not modelled. Responses are given as already-decoded strings.
- Plo.Handshake: some failures of `boot_plo_naively` are outside the model, which assumes every response decodes and every port opens. `read_until(...).decode()` decodes strictly as UTF-8, so a stray byte raises UnicodeDecodeError. This can happen on the first response (plo.py:21) and on any reply after the reboot (plo.py:36), for instance at a wrong `baud` or while the target reboots. Opening the port can also raise `serial.SerialException` (plo.py:19, 32 and 35). The model's only failure is KeyError (plo.py:28).
- `shutil.which` is not modelled. It is the `located` input of `WhichOpenocd`.
- `subprocess.run` is not modelled. It is the `exitStatus` input, and the model records the argv lists that would be run. Exceptions that `subprocess.run` raises itself, such as a vanished binary, are not modelled.
- `str(Path(...))` normalisation of the binary, target-config and image paths is not modelled. Paths are taken as their string forms.
- `open` and `json.load` are not modelled. A file is `Missing`, `Undecodable` or `Parsed`.
- A top-level JSON value that is not an object is not modelled, nor is a `configuration` element that is not an object. Both would raise AttributeError in the code.
- Non-string `name` values are folded into `None`, because they never equal the requested name.
- The other values of a configuration entry are JSON values (objects, lists, numbers or strings) and are kept as text in `settings`. Nothing in the model reads them, because a found entry is returned whole.
- Config.LoadConfigEntry: some errors escape `load_config_entry` uncaught and are outside the three file states, so the model never produces them. These are open errors other than FileNotFoundError, such as PermissionError or IsADirectoryError (config.py:34). They also include UnicodeDecodeError from non-UTF-8 bytes, which is not a JSONDecodeError (config.py:35, 40), and TypeError when `"configuration"` is `null` or a number (config.py:62).
- Logging is left out except two strings. The ramdisk request message is returned as a string, with the configuration dictionary's text form as an input. The OpenOCD command string goes into the `OpenOCD cmd = ` log line and is recorded as `logged`.
- Exception messages are not modelled. Only the exception class is.
- `cli.py` (argument parsing, log sinks, `os.makedirs`) is not modelled. Its call passes keyword names that `ramdisk_flash` does not accept.
- The decorator `handle_exceptions` in `exceptions.py` is not modelled. It only logs and exits.
- `project.py`, `env_check.py` and `project_check.py` are not modelled. They are working-directory and file-existence plumbing.
- Partition planning from `nvm.yaml`, the plo `copy` command and its completion polling are not modelled. No modelled file implements them.

=== FILE: config.dfy ===
/** Configuration-entry lookup of src/pflash/config.py: entries are searched
    by name in the user's configuration file first and in the configuration
    file bundled with pflash second.

    Reading a file is replaced by the state the file is found in: absent,
    present but not valid JSON, or parsed. */
module Config {
  import opened Wrappers
  import opened Errors
  import opened Seqs

  /** One object of the `"configuration"` list. `name` is `None` when the
      object has no string `"name"`; its other keys are kept in `settings`,
      each value as its text. */
  datatype Entry = Entry(name: Option<string>, settings: map<string, string>)

  /** A parsed configuration file; `configuration` is `None` when the key is absent. */
  datatype Document = Document(configuration: Option<seq<Entry>>)

  datatype ConfigFile = Missing | Undecodable | Parsed(document: Document)

  /** `load_config_file`: the parsed document, or the error its state maps to. */
  function LoadConfigFile(file: ConfigFile): (r: Result<Document, Error>)
    ensures r.Success? <==> file.Parsed?
    ensures file.Missing? ==> r == Failure(ConfigNotFoundError)
    ensures file.Undecodable? ==> r == Failure(InvalidConfigError)
    ensures file.Parsed? ==> r.value == file.document
  {
    match file
    case Missing => Failure(ConfigNotFoundError)
    case Undecodable => Failure(InvalidConfigError)
    case Parsed(document) => Success(document)
  }

  /** `config_data.get("configuration", [])`. */
  function Entries(document: Document): seq<Entry> {
    match document.configuration
    case None => []
    case Some(entries) => entries
  }

  /** The entries a file offers: none unless it parsed. */
  function FileEntries(file: ConfigFile): seq<Entry> {
    if file.Parsed? then Entries(file.document) else []
  }

  predicate HasName(entry: Entry, entryName: string) {
    entry.name == Some(entryName)
  }

  /** `find_entry`: the first entry of the file named `entryName`, `None`
      when there is none, or the error loading the file raised. */
  function FindEntry(file: ConfigFile, entryName: string): (r: Result<Option<Entry>, Error>)
    ensures r.Failure? <==> !file.Parsed?
    ensures r.Failure? ==> r.error == (if file.Missing? then ConfigNotFoundError else InvalidConfigError)
    ensures r.Success? && r.value.Some? ==>
      exists i :: 0 <= i < |Entries(file.document)| && Entries(file.document)[i] == r.value.value
        && HasName(r.value.value, entryName)
        && forall j :: 0 <= j < i ==> !HasName(Entries(file.document)[j], entryName)
    ensures r.Success? && r.value.None? ==>
      forall j :: 0 <= j < |Entries(file.document)| ==> !HasName(Entries(file.document)[j], entryName)
  {
    match LoadConfigFile(file)
    case Failure(e) => Failure(e)
    case Success(document) =>
      var entries := Entries(document);
      match FirstIndex(entries, e => HasName(e, entryName))
      case Some(i) => Success(Some(entries[i]))
      case None => Success(None)
  }

  /** The lookup in the internal file, which is the last resort: no match there
      is `ConfigNotFoundError`, and its load errors are not caught. */
  function FromInternal(internal: ConfigFile, entryName: string): (r: Result<Entry, Error>)
    ensures r.Success? ==> HasName(r.value, entryName)
    ensures r.Success? ==> FindEntry(internal, entryName) == Success(Some(r.value))
    ensures internal.Missing? ==> r == Failure(ConfigNotFoundError)
    ensures internal.Undecodable? ==> r == Failure(InvalidConfigError)
    ensures internal.Parsed? ==>
      && (r.Failure? <==> forall j :: 0 <= j < |Entries(internal.document)| ==> !HasName(Entries(internal.document)[j], entryName))
      && (r.Failure? ==> r.error == ConfigNotFoundError)
  {
    match FindEntry(internal, entryName)
    case Failure(e) => Failure(e)
    case Success(Some(entry)) => Success(entry)
    case Success(None) => Failure(ConfigNotFoundError)
  }

  /** `load_config_entry`: the user file first, where only a missing file is
      forgiven; then the internal file. Whatever succeeds carries the name asked for. */
  function LoadConfigEntry(user: ConfigFile, internal: ConfigFile, entryName: string): (r: Result<Entry, Error>)
    ensures r.Success? ==> HasName(r.value, entryName)
    ensures r.Success? ==> r.value in FileEntries(user) || r.value in FileEntries(internal)
    ensures user.Undecodable? ==> r == Failure(InvalidConfigError)
    ensures FindEntry(user, entryName).Success? && FindEntry(user, entryName).value.Some? ==>
      r == Success(FindEntry(user, entryName).value.value)
    ensures user.Missing? || FindEntry(user, entryName) == Success(None) ==> r == FromInternal(internal, entryName)
    ensures r.Failure? ==> r.error == ConfigNotFoundError || r.error == InvalidConfigError
  {
    var fromUser := FindEntry(user, entryName);
    if fromUser.Success? && fromUser.value.Some? then Success(fromUser.value.value)
    else if fromUser.Failure? && fromUser.error != ConfigNotFoundError then Failure(fromUser.error)
    else FromInternal(internal, entryName)
  }

  /** A match in the user file is returned whatever state the internal file is in. */
  lemma UserMatchShadowsInternal(user: ConfigFile, internal: ConfigFile, other: ConfigFile, entryName: string)
    requires user.Parsed? && exists i :: 0 <= i < |Entries(user.document)| && HasName(Entries(user.document)[i], entryName)
    ensures LoadConfigEntry(user, internal, entryName).Success?
    ensures LoadConfigEntry(user, internal, entryName) == LoadConfigEntry(user, other, entryName)
  {
  }

  /** A missing user file behaves exactly like a user file with no entries. */
  lemma MissingUserFileIsEmpty(internal: ConfigFile, entryName: string)
    ensures LoadConfigEntry(Missing, internal, entryName) == LoadConfigEntry(Parsed(Document(None)), internal, entryName)
    ensures LoadConfigEntry(Missing, internal, entryName) == LoadConfigEntry(Parsed(Document(Some([]))), internal, entryName)
  {
  }

  /** With no match in either place the lookup fails with `ConfigNotFoundError`,
      as it does when the internal file is missing and the user file has no match. */
  lemma NoMatchIsNotFound(user: ConfigFile, internal: ConfigFile, entryName: string)
    requires user.Missing? || (user.Parsed? && forall j :: 0 <= j < |Entries(user.document)| ==> !HasName(Entries(user.document)[j], entryName))
    requires internal.Missing? || (internal.Parsed? && forall j :: 0 <= j < |Entries(internal.document)| ==> !HasName(Entries(internal.document)[j], entryName))
    ensures LoadConfigEntry(user, internal, entryName) == Failure(ConfigNotFoundError)
  {
  }

  /** When both files parse, the two-step lookup is a single first-match search
      over the user's entries followed by the internal ones. */
  lemma {:induction false} LookupIsFirstMatchOfBoth(user: Document, internal: Document, entryName: string)
    ensures var all := Entries(user) + Entries(internal);
      LoadConfigEntry(Parsed(user), Parsed(internal), entryName) ==
        match FirstIndex(all, e => HasName(e, entryName))
        case Some(k) => Success(all[k])
        case None => Failure(ConfigNotFoundError)
  {
    var u := Entries(user);
    var all := u + Entries(internal);
    FirstIndexConcat(u, Entries(internal), e => HasName(e, entryName));
    match FirstIndex(u, e => HasName(e, entryName))
    case Some(i) =>
      assert all[i] == u[i];
    case None =>
      match FirstIndex(Entries(internal), e => HasName(e, entryName))
      case Some(j) =>
        assert all[|u| + j] == Entries(internal)[j];
      case None =>
  }
}

=== FILE: errors.dfy ===
/** The exceptions the flashing core raises, by class name. */
module Errors {

  datatype Error =
    // pflash's own hierarchy (subclasses of PflashError)
    | LackOfPrerequisite
    | ConfigNotFoundError
    | InvalidConfigError
    | OpenOcdTimeout
    | OpenOcdFail
    | BootloaderError
    // Python built-in exceptions raised directly by the core
    | KeyError
    | FileNotFoundError
    | IndexError
    | CalledProcessError(returncode: int)
}

=== FILE: openocd.dfy ===
/** The OpenOCD invocation of src/pflash/openocd.py: locating the binary and
    building the command that loads a binary image into the target's RAM.

    `shutil.which` is replaced by the path it located (or `None`), and
    `subprocess.run` by the exit status the probe tool would return; the model
    records which command lines would have been run instead of running them. */
module OpenOcd {
  import opened Wrappers
  import opened Errors
  import opened Strings

  /** `which_openocd`: the located path when there is one. Python's `if` treats
      an empty path like `None`. */
  function WhichOpenocd(located: Option<string>): (r: Result<string, Error>)
    ensures r.Success? <==> located.Some? && located.value != ""
    ensures r.Success? ==> r.value == located.value
    ensures r.Failure? ==> r.error == FileNotFoundError
  {
    if located.Some? && located.value != "" then Success(located.value)
    else Failure(FileNotFoundError)
  }

  // ---------------------------------------------------------------------------
  // Command-line wire format
  // ---------------------------------------------------------------------------

  /** One option of an OpenOCD command line: `-f <file>` or `-c <command>`. */
  datatype ProbeArg = ConfigFile(path: string) | Command(text: string) {
    function Flag(): string {
      if ConfigFile? then "-f" else "-c"
    }

    function Operand(): string {
      if ConfigFile? then path else text
    }
  }

  predicate IsFlag(s: string) {
    s == "-f" || s == "-c"
  }

  /** The argv words of a list of options: each flag immediately followed by its operand. */
  function RenderArgs(args: seq<ProbeArg>): (argv: seq<string>)
    ensures |argv| == 2 * |args|
    ensures forall k :: 0 <= k < |args| ==> argv[2 * k] == args[k].Flag() && argv[2 * k + 1] == args[k].Operand()
  {
    if |args| == 0 then [] else [args[0].Flag(), args[0].Operand()] + RenderArgs(args[1..])
  }

  /** Reads argv words back into options; `None` unless they are flag/operand pairs. */
  function ParseArgs(argv: seq<string>): (r: Option<seq<ProbeArg>>)
    decreases |argv|
  {
    if |argv| == 0 then Some([])
    else if |argv| == 1 || !IsFlag(argv[0]) then None
    else
      var arg := if argv[0] == "-f" then ConfigFile(argv[1]) else Command(argv[1]);
      match ParseArgs(argv[2..])
      case None => None
      case Some(rest) => Some([arg] + rest)
  }

  lemma {:induction false} ParseRenderArgs(args: seq<ProbeArg>)
    ensures ParseArgs(RenderArgs(args)) == Some(args)
  {
    if |args| > 0 {
      var argv := RenderArgs(args);
      var tail := RenderArgs(args[1..]);
      assert argv == [args[0].Flag(), args[0].Operand()] + tail;
      assert argv[2..] == tail;
      ParseRenderArgs(args[1..]);
      assert [args[0]] + args[1..] == args;
    }
  }

  lemma {:induction false} RenderParseArgs(argv: seq<string>)
    requires ParseArgs(argv).Some?
    ensures RenderArgs(ParseArgs(argv).value) == argv
    decreases |argv|
  {
    if |argv| > 0 {
      var args := ParseArgs(argv).value;
      RenderParseArgs(argv[2..]);
      assert args[1..] == ParseArgs(argv[2..]).value;
      assert RenderArgs(args) == [argv[0], argv[1]] + argv[2..];
    }
  }

  // ---------------------------------------------------------------------------
  // The load_image command
  // ---------------------------------------------------------------------------

  const LOAD_PREFIX := "load_image \""
  const LOAD_SUFFIX := " bin"

  /** OpenOCD's `load_image "<image>" <addr> bin`, the address in decimal. */
  function LoadImageCommand(image: string, addr: int): string {
    LOAD_PREFIX + image + "\" " + IntToDecimal(addr) + LOAD_SUFFIX
  }

  /** Where the longest run of numeral characters ending `m` begins. */
  function NumeralSuffixStart(m: string): (k: nat)
    ensures k <= |m|
    ensures forall i :: k <= i < |m| ==> IsNumeralChar(m[i])
    ensures k > 0 ==> !IsNumeralChar(m[k - 1])
    decreases |m|
  {
    if |m| == 0 || !IsNumeralChar(m[|m| - 1]) then |m| else NumeralSuffixStart(m[..|m| - 1])
  }

  /** The text between `load_image "` and ` bin`, if `s` has that frame. */
  function LoadImageBody(s: string): Option<string>
  {
    if |s| < |LOAD_PREFIX| + |LOAD_SUFFIX| || s[..|LOAD_PREFIX|] != LOAD_PREFIX
      || s[|s| - |LOAD_SUFFIX|..] != LOAD_SUFFIX then None
    else Some(s[|LOAD_PREFIX|..|s| - |LOAD_SUFFIX|])
  }

  /** Splits `<image>" <addr>` at the numeral that ends it, so an image path
      that itself holds quotes, spaces or digits is still recovered whole. */
  function SplitImageAddr(m: string): Option<(string, int)>
  {
    var k := NumeralSuffixStart(m);
    if k < 2 || m[k - 2..k] != "\" " then None
    else match ParseInt(m[k..])
      case None => None
      case Some(addr) => Some((m[..k - 2], addr))
  }

  /** Reads the image path and address back out of a `load_image` command. */
  function ParseLoadImage(s: string): Option<(string, int)>
  {
    match LoadImageBody(s)
    case None => None
    case Some(m) => SplitImageAddr(m)
  }

  lemma LoadImageBodyOf(body: string)
    ensures LoadImageBody(LOAD_PREFIX + body + LOAD_SUFFIX) == Some(body)
  {
  }

  /** The numeral after the closing quote and space is exactly the address. */
  lemma SplitImageAddrOf(image: string, addr: int)
    ensures SplitImageAddr(image + "\" " + IntToDecimal(addr)) == Some((image, addr))
  {
    var d := IntToDecimal(addr);
    IntDecimalRoundTrip(addr);
    var m := image + "\" " + d;
    var k := NumeralSuffixStart(m);
    assert m[|image| + 1] == ' ';
    assert forall i :: |image| + 2 <= i < |m| ==> m[i] == d[i - |image| - 2];
    assert k == |image| + 2;
    assert m[k - 2..k] == "\" ";
    assert m[k..] == d;
    assert m[..k - 2] == image;
  }

  lemma LoadImageRoundTrip(image: string, addr: int)
    ensures ParseLoadImage(LoadImageCommand(image, addr)) == Some((image, addr))
  {
    var m := image + "\" " + IntToDecimal(addr);
    assert LoadImageCommand(image, addr) == LOAD_PREFIX + m + LOAD_SUFFIX;
    LoadImageBodyOf(m);
    SplitImageAddrOf(image, addr);
  }

  // ---------------------------------------------------------------------------
  // upload_to_ram
  // ---------------------------------------------------------------------------

  const RESET_CONFIG := "reset_config srst_only"

  /** The options `upload_to_ram` passes, in order: probe and target config
      files, then reset mode, init, halt, load, resume and exit. */
  function UploadScript(probeCfg: string, targetCfg: string, image: string, addr: int): seq<ProbeArg> {
    [ ConfigFile(probeCfg), ConfigFile(targetCfg),
      Command(RESET_CONFIG), Command("init"), Command("halt"),
      Command(LoadImageCommand(image, addr)), Command("resume"), Command("exit") ]
  }

  /** The argv `upload_to_ram` builds: the binary, then `-f` with each config
      file, then `-c` with each of the six commands in order. */
  function OpenocdCommand(binary: string, probeCfg: string, targetCfg: string, image: string, addr: int): (argv: seq<string>)
    ensures |argv| == 17 && argv[0] == binary
    ensures argv[1] == "-f" && argv[2] == probeCfg && argv[3] == "-f" && argv[4] == targetCfg
    ensures argv[5] == "-c" && argv[6] == RESET_CONFIG
    ensures argv[7] == "-c" && argv[8] == "init"
    ensures argv[9] == "-c" && argv[10] == "halt"
    ensures argv[11] == "-c" && argv[12] == LoadImageCommand(image, addr)
    ensures argv[13] == "-c" && argv[14] == "resume"
    ensures argv[15] == "-c" && argv[16] == "exit"
  {
    var script := UploadScript(probeCfg, targetCfg, image, addr);
    var rendered := RenderArgs(script);
    assert script[0].Operand() == probeCfg && script[1].Operand() == targetCfg;
    assert script[2].Operand() == RESET_CONFIG && script[3].Operand() == "init" && script[4].Operand() == "halt";
    assert script[5].Operand() == LoadImageCommand(image, addr) && script[6].Operand() == "resume" && script[7].Operand() == "exit";
    [binary] + rendered
  }

  /** The argv decodes back into the binary and the upload script, and its
      load command back into the image and address. */
  lemma CommandDecodes(binary: string, probeCfg: string, targetCfg: string, image: string, addr: int)
    ensures var argv := OpenocdCommand(binary, probeCfg, targetCfg, image, addr);
      && ParseArgs(argv[1..]) == Some(UploadScript(probeCfg, targetCfg, image, addr))
      && ParseLoadImage(argv[12]) == Some((image, addr))
  {
    var script := UploadScript(probeCfg, targetCfg, image, addr);
    assert OpenocdCommand(binary, probeCfg, targetCfg, image, addr)[1..] == RenderArgs(script);
    ParseRenderArgs(script);
    LoadImageRoundTrip(image, addr);
  }

  /** What `upload_to_ram` returns: 0 in dry mode, otherwise the completed
      process (`check=True` means a returned process always exited with 0). */
  datatype Returned = DryRunZero | Completed(args: seq<string>, returncode: int)

  /** The outcome of `upload_to_ram` together with its observable effects: the
      command string it logs and the argv lists it hands to `subprocess.run`. */
  datatype Upload = Upload(result: Result<Returned, Error>, logged: Option<string>, invoked: seq<seq<string>>)

  function UploadToRam(located: Option<string>, probeCfg: string, targetCfg: string, image: string,
                       addr: int, dry: bool, exitStatus: int): (u: Upload)
    // the binary is looked up first, so a missing openocd fails even in dry mode
    ensures WhichOpenocd(located).Failure? ==> u == Upload(Failure(FileNotFoundError), None, [])
    ensures WhichOpenocd(located).Success? ==>
      var argv := OpenocdCommand(located.value, probeCfg, targetCfg, image, addr);
      && u.logged == Some(Join(" ", argv))
      && (dry ==> u.result == Success(DryRunZero) && u.invoked == [])
      && (!dry ==> u.invoked == [argv])
      && (!dry && exitStatus == 0 ==> u.result == Success(Completed(argv, 0)))
      && (!dry && exitStatus != 0 ==> u.result == Failure(CalledProcessError(exitStatus)))
    ensures dry ==> u.invoked == []
  {
    match WhichOpenocd(located)
    case Failure(e) => Upload(Failure(e), None, [])
    case Success(binary) =>
      var argv := OpenocdCommand(binary, probeCfg, targetCfg, image, addr);
      var line := Join(" ", argv);
      if dry then Upload(Success(DryRunZero), Some(line), [])
      else if exitStatus == 0 then Upload(Success(Completed(argv, 0)), Some(line), [argv])
      else Upload(Failure(CalledProcessError(exitStatus)), Some(line), [argv])
  }
}

=== FILE: plo.dfy ===
/** The naive bootloader handshake of src/pflash/plo.py: wake the target's
    console, and if the application shell answered instead of the plo
    bootloader, reboot it and wait for the bootloader's input prompt.

    The serial port is replaced by what it delivers: the response to the wake
    newline, then the finite sequence of strings that the reads after the
    reboot return, one per read. Each is taken as an opaque string, however
    the read ended. What the handshake does to the port is recorded as an
    ordered log of writes and reads, each tagged with the baud rate of the
    session it happened in. */
module Plo {
  import opened Wrappers
  import opened Errors
  import opened Strings
  import opened Seqs

  /** The wake newline, also sent to acknowledge the post-reboot prompt. */
  const WAKE := "\n"
  const REBOOT := "reboot\n"
  /** A response containing this came from the plo bootloader. */
  const PLO_TOKEN := "plo"
  /** A response containing this came from the application shell. */
  const PSH_TOKEN := "psh"
  /** plo prints this once it has stopped after a reboot. */
  const READY_TOKEN := "Waiting for input"
  /** Baud of the reboot and post-reboot sessions, whatever the caller asked for. */
  const REBOOT_BAUD := 115200

  datatype Write = Write(data: string, baud: int)

  /** One action on the serial port. */
  datatype Event = Sent(write: Write) | Received(data: string, baud: int)

  /** `StillWaiting`: the post-reboot loop has no exit other than a ready
      reply, so a trace that ends without one leaves it still polling. */
  datatype Outcome = InBootloader | Failed(error: Error) | StillWaiting

  datatype Run = Run(outcome: Outcome, log: seq<Event>)

  /** The writes of a log, in order. */
  function Writes(log: seq<Event>): seq<Write>
  {
    if |log| == 0 then []
    else (if log[0].Sent? then [log[0].write] else []) + Writes(log[1..])
  }

  lemma {:induction false} WritesAppend(a: seq<Event>, b: seq<Event>)
    ensures Writes(a + b) == Writes(a) + Writes(b)
  {
    if |a| == 0 {
      assert a + b == b;
    } else {
      assert (a + b)[0] == a[0];
      assert (a + b)[1..] == a[1..] + b;
      WritesAppend(a[1..], b);
    }
  }

  /** One read per reply, in order. */
  function Receipts(replies: seq<string>, baud: int): (log: seq<Event>)
    ensures |log| == |replies|
    ensures forall k :: 0 <= k < |replies| ==> log[k] == Received(replies[k], baud)
  {
    seq(|replies|, k requires 0 <= k < |replies| => Received(replies[k], baud))
  }

  lemma {:induction false} ReceiptsWriteNothing(replies: seq<string>, baud: int)
    ensures Writes(Receipts(replies, baud)) == []
    decreases |replies|
  {
    var log := Receipts(replies, baud);
    if |replies| > 0 {
      assert log[1..] == Receipts(replies[1..], baud);
      ReceiptsWriteNothing(replies[1..], baud);
    }
  }

  predicate IsReady(reply: string) {
    Contains(reply, READY_TOKEN)
  }

  /** The handshake as a whole: what `boot_plo_naively` does to the port and
      how it ends, given what the port delivers. */
  function Handshake(baud: int, dry: bool, first: string, replies: seq<string>): (r: Run)
    ensures dry ==> r == Run(InBootloader, [])
    ensures !dry ==> |r.log| >= 2 && r.log[0] == Sent(Write(WAKE, baud)) && r.log[1] == Received(first, baud)
    ensures r.outcome.Failed? ==> r.outcome.error == KeyError
  {
    if dry then Run(InBootloader, [])
    else
      var probe := [Sent(Write(WAKE, baud)), Received(first, baud)];
      if Contains(first, PLO_TOKEN) then Run(InBootloader, probe)
      else if !Contains(first, PSH_TOKEN) then Run(Failed(KeyError), probe)
      else
        var waited := AfterReboot(replies);
        Run(waited.outcome, probe + [Sent(Write(REBOOT, REBOOT_BAUD))] + waited.log)
  }

  /** The post-reboot phase on its own: every reply up to the first ready one
      is read, and that one is acknowledged with a newline. */
  function AfterReboot(replies: seq<string>): (r: Run)
    ensures r.outcome == InBootloader <==> exists i :: 0 <= i < |replies| && IsReady(replies[i])
    ensures r.outcome == InBootloader || r.outcome == StillWaiting
    ensures r.outcome == StillWaiting ==>
      |r.log| == |replies| && forall k :: 0 <= k < |replies| ==> r.log[k] == Received(replies[k], REBOOT_BAUD)
  {
    match FirstIndex(replies, IsReady)
    case Some(i) =>
      Run(InBootloader, Receipts(replies[..i + 1], REBOOT_BAUD) + [Sent(Write(WAKE, REBOOT_BAUD))])
    case None =>
      Run(StillWaiting, Receipts(replies, REBOOT_BAUD))
  }

  /** `boot_plo_naively` step by step. */
  method BootPloNaively(baud: int, dry: bool, first: string, replies: seq<string>) returns (r: Run)
    ensures r == Handshake(baud, dry, first, replies)
  {
    if dry {
      return Run(InBootloader, []);
    }
    var log := [Sent(Write(WAKE, baud))];
    var recv := first;
    log := log + [Received(recv, baud)];
    if Contains(recv, PLO_TOKEN) {
      return Run(InBootloader, log);
    }
    if !Contains(recv, PSH_TOKEN) {
      return Run(Failed(KeyError), log);
    }
    log := log + [Sent(Write(REBOOT, REBOOT_BAUD))];
    var waited := AwaitReady(replies);
    return Run(waited.outcome, log + waited.log);
  }

  /** The post-reboot `while 1` loop, reading once per iteration until a
      ready reply arrives or the trace runs out. */
  method AwaitReady(replies: seq<string>) returns (r: Run)
    ensures r == AfterReboot(replies)
  {
    var log := [];
    var k := 0;
    while k < |replies|
      invariant k <= |replies|
      invariant log == Receipts(replies[..k], REBOOT_BAUD)
      invariant forall j :: 0 <= j < k ==> !IsReady(replies[j])
    {
      var recv := replies[k];
      log := log + [Received(recv, REBOOT_BAUD)];
      assert Receipts(replies[..k + 1], REBOOT_BAUD) == Receipts(replies[..k], REBOOT_BAUD) + [Received(recv, REBOOT_BAUD)];
      if Contains(recv, READY_TOKEN) {
        assert IsReady(replies[k]);
        assert FirstIndex(replies, IsReady) == Some(k);
        log := log + [Sent(Write(WAKE, REBOOT_BAUD))];
        return Run(InBootloader, log);
      }
      k := k + 1;
    }
    assert replies[..k] == replies;
    assert FirstIndex(replies, IsReady) == None;
    return Run(StillWaiting, log);
  }

  // ---------------------------------------------------------------------------
  // Properties of the handshake
  // ---------------------------------------------------------------------------

  /** Probing writes the wake newline and nothing else. */
  lemma ProbeWrites(baud: int, first: string)
    ensures Writes([Sent(Write(WAKE, baud)), Received(first, baud)]) == [Write(WAKE, baud)]
  {
    var probe := [Sent(Write(WAKE, baud)), Received(first, baud)];
    assert probe[1..] == [Received(first, baud)];
    assert probe[1..][1..] == [];
    assert Writes(probe[1..][1..]) == [];
    assert Writes(probe[1..]) == [];
  }

  /** A prompt from plo ends the handshake at once: the wake newline is the
      only write, so no reboot is ever sent. The plo test comes first, so this
      holds even when the response also mentions psh. */
  lemma PloPromptNeedsNoReboot(baud: int, first: string, replies: seq<string>)
    requires Contains(first, PLO_TOKEN)
    ensures Handshake(baud, false, first, replies).outcome == InBootloader
    ensures Writes(Handshake(baud, false, first, replies).log) == [Write(WAKE, baud)]
  {
    ProbeWrites(baud, first);
  }

  /** A response naming neither plo nor psh is fatal, after the wake newline only. */
  lemma UnrecognisedResponseFails(baud: int, first: string, replies: seq<string>)
    requires !Contains(first, PLO_TOKEN) && !Contains(first, PSH_TOKEN)
    ensures Handshake(baud, false, first, replies).outcome == Failed(KeyError)
    ensures Writes(Handshake(baud, false, first, replies).log) == [Write(WAKE, baud)]
  {
    ProbeWrites(baud, first);
  }

  /** The reboot path: exactly one reboot command, both it and the final
      acknowledgement at 115200 baud whatever `baud` was, and success exactly
      when some later reply carries the ready token. With no such reply the
      handshake never succeeds; it is still waiting. */
  lemma {:induction false} RebootPath(baud: int, first: string, replies: seq<string>)
    requires !Contains(first, PLO_TOKEN) && Contains(first, PSH_TOKEN)
    ensures var r := Handshake(baud, false, first, replies);
      && (r.outcome == InBootloader <==> exists i :: 0 <= i < |replies| && IsReady(replies[i]))
      && (r.outcome != InBootloader ==> r.outcome == StillWaiting)
      && Writes(r.log) ==
         [Write(WAKE, baud), Write(REBOOT, REBOOT_BAUD)]
         + (if r.outcome == InBootloader then [Write(WAKE, REBOOT_BAUD)] else [])
  {
    var probe := [Sent(Write(WAKE, baud)), Received(first, baud)];
    var reboot := [Sent(Write(REBOOT, REBOOT_BAUD))];
    var rebooted := probe + reboot;
    var waited := AfterReboot(replies);
    assert Handshake(baud, false, first, replies) == Run(waited.outcome, rebooted + waited.log);
    ProbeWrites(baud, first);
    assert Writes(reboot) == [Write(REBOOT, REBOOT_BAUD)];
    WritesAppend(probe, reboot);
    AfterRebootWrites(replies);
    WritesAppend(rebooted, waited.log);
  }

  /** The post-reboot phase writes the acknowledging newline exactly when it succeeds. */
  lemma AfterRebootWrites(replies: seq<string>)
    ensures var r := AfterReboot(replies);
      && (r.outcome == InBootloader <==> exists i :: 0 <= i < |replies| && IsReady(replies[i]))
      && (r.outcome != InBootloader ==> r.outcome == StillWaiting)
      && Writes(r.log) == (if r.outcome == InBootloader then [Write(WAKE, REBOOT_BAUD)] else [])
  {
    match FirstIndex(replies, IsReady)
    case Some(i) =>
      var heard := Receipts(replies[..i + 1], REBOOT_BAUD);
      var ack := [Sent(Write(WAKE, REBOOT_BAUD))];
      assert Writes(ack) == [Write(WAKE, REBOOT_BAUD)];
      ReceiptsWriteNothing(replies[..i + 1], REBOOT_BAUD);
      WritesAppend(heard, ack);
    case None =>
      ReceiptsWriteNothing(replies, REBOOT_BAUD);
  }

  /** After the reboot, the first ready reply `replies[i]` ends the handshake:
      replies 0..i are read with no write in between, one acknowledging newline
      follows, and nothing more is read. */
  lemma ReadyReplyEndsWait(baud: int, first: string, replies: seq<string>, i: nat)
    requires !Contains(first, PLO_TOKEN) && Contains(first, PSH_TOKEN)
    requires i < |replies| && IsReady(replies[i])
    requires forall j :: 0 <= j < i ==> !IsReady(replies[j])
    ensures var r := Handshake(baud, false, first, replies);
      && r.outcome == InBootloader
      && |r.log| == i + 5
      && r.log[2] == Sent(Write(REBOOT, REBOOT_BAUD))
      && (forall k :: 0 <= k <= i ==> r.log[3 + k] == Received(replies[k], REBOOT_BAUD))
      && r.log[i + 4] == Sent(Write(WAKE, REBOOT_BAUD))
  {
  }

  /** Once the handshake has ended, replies that would arrive later change nothing. */
  lemma {:induction false} LaterRepliesIgnored(baud: int, dry: bool, first: string, replies: seq<string>, more: seq<string>)
    requires Handshake(baud, dry, first, replies).outcome != StillWaiting
    ensures Handshake(baud, dry, first, replies + more) == Handshake(baud, dry, first, replies)
  {
    if !dry && !Contains(first, PLO_TOKEN) && Contains(first, PSH_TOKEN) {
      FirstIndexConcat(replies, more, IsReady);
      var i := FirstIndex(replies, IsReady).value;
      assert (replies + more)[..i + 1] == replies[..i + 1];
    }
  }

  /** While still waiting, a longer trace only extends what was done: the log
      so far is a prefix of the log on any continuation. */
  lemma WaitingIsPrefix(baud: int, dry: bool, first: string, replies: seq<string>, more: seq<string>)
    requires Handshake(baud, dry, first, replies).outcome == StillWaiting
    ensures Handshake(baud, dry, first, replies).log <= Handshake(baud, dry, first, replies + more).log
  {
  }
}

=== FILE: ramdisk_flash.dfy ===
/** The request message of `ramdisk_flash` in src/pflash/ramdisk_flash.py: the
    requested partitions as a comma-separated list with a singular or plural
    label. The function logs that message and does nothing else, so the model
    returns the message instead of logging it. */
module RamdiskFlash {
  import opened Wrappers
  import opened Errors
  import opened Strings

  const LIST_SEPARATOR := ", "
  const MESSAGE_HEAD := "Request to flash "

  /** `partition_list`: the names joined by ", " when there are several, the
      name itself when there is one, and `IndexError` from `partition[0]`
      when there is none. */
  function PartitionList(partition: seq<string>): (r: Result<string, Error>)
    ensures r.Failure? <==> |partition| == 0
    ensures r.Failure? ==> r.error == IndexError
    ensures r.Success? ==> r.value == Join(LIST_SEPARATOR, partition)
  {
    if |partition| > 1 then Success(Join(LIST_SEPARATOR, partition))
    else if |partition| == 1 then Success(partition[0])
    else Failure(IndexError)
  }

  /** `partition_label`: plural exactly when more than one partition is named. */
  function PartitionLabel(partition: seq<string>): (r: string)
    ensures r == "partitions" <==> |partition| > 1
    ensures r == "partition" <==> |partition| <= 1
  {
    if |partition| > 1 then "partitions" else "partition"
  }

  /** The message `ramdisk_flash` logs; `config` is the text Python renders
      for the configuration dictionary. The list is computed first, so an
      empty request fails before any message is formed. */
  function RamdiskFlash(partition: seq<string>, serial: string, config: string, root: string): (r: Result<string, Error>)
    ensures r.Failure? <==> |partition| == 0
    ensures r.Failure? ==> r.error == IndexError
    ensures r.Success? ==>
      var head := MESSAGE_HEAD + Join(LIST_SEPARATOR, partition) + " " + PartitionLabel(partition) + " using ramdisk";
      |head| <= |r.value| && r.value[..|head|] == head
    ensures r.Success? ==>
      r.value == MESSAGE_HEAD + Join(LIST_SEPARATOR, partition)
        + (" " + PartitionLabel(partition) + " using ramdisk, serial = " + serial + ", config = " + config + " root = " + root)
  {
    match PartitionList(partition)
    case Failure(e) => Failure(e)
    case Success(partitionList) =>
      Success(MESSAGE_HEAD + partitionList + MessageTail(PartitionLabel(partition), serial, config, root))
  }

  /** What follows the partition list in the message. */
  function MessageTail(partitionLabel: string, serial: string, config: string, root: string): string {
    " " + partitionLabel + " using ramdisk, serial = " + serial + ", config = " + config + " root = " + root
  }

  /** Where the request message places the `i`-th requested name. */
  function NameOffset(partition: seq<string>, i: nat): nat
    requires i < |partition|
  {
    |MESSAGE_HEAD| + Start(LIST_SEPARATOR, partition, i)
  }

  /** The `i`-th requested name sits at `NameOffset(i)` in the message. */
  lemma MessageNamesPartition(partition: seq<string>, serial: string, config: string, root: string, i: nat)
    requires i < |partition|
    ensures var message := RamdiskFlash(partition, serial, config, root).value;
      NameOffset(partition, i) + |partition[i]| <= |message|
      && message[NameOffset(partition, i)..NameOffset(partition, i) + |partition[i]|] == partition[i]
  {
    var list := Join(LIST_SEPARATOR, partition);
    var tail := MessageTail(PartitionLabel(partition), serial, config, root);
    JoinPartAt(LIST_SEPARATOR, partition, i);
    SliceOfMiddle(MESSAGE_HEAD, list, tail, Start(LIST_SEPARATOR, partition, i), |partition[i]|);
  }

  /** Every requested name appears in the message, in request order, each
      wholly before the next with ", " between them. */
  lemma MessageNamesEveryPartition(partition: seq<string>, serial: string, config: string, root: string)
    requires |partition| > 0
    ensures var message := RamdiskFlash(partition, serial, config, root).value;
      forall i :: 0 <= i < |partition| ==>
        NameOffset(partition, i) + |partition[i]| <= |message|
        && message[NameOffset(partition, i)..NameOffset(partition, i) + |partition[i]|] == partition[i]
    ensures forall i, k :: 0 <= i < k < |partition| ==>
      NameOffset(partition, i) + |partition[i]| + |LIST_SEPARATOR| <= NameOffset(partition, k)
    ensures var message := RamdiskFlash(partition, serial, config, root).value;
      forall i :: 0 <= i < |partition| - 1 ==>
        NameOffset(partition, i) + |partition[i]| + |LIST_SEPARATOR| <= |message|
        && message[NameOffset(partition, i) + |partition[i]|..NameOffset(partition, i) + |partition[i]| + |LIST_SEPARATOR|]
           == LIST_SEPARATOR
  {
    forall i | 0 <= i < |partition| {
      MessageNamesPartition(partition, serial, config, root, i);
    }
    forall i, k | 0 <= i < k < |partition| {
      JoinPreservesOrder(LIST_SEPARATOR, partition, i, k);
    }
    var message := RamdiskFlash(partition, serial, config, root).value;
    var list := Join(LIST_SEPARATOR, partition);
    var tail := MessageTail(PartitionLabel(partition), serial, config, root);
    assert message == MESSAGE_HEAD + list + tail;
    forall i | 0 <= i < |partition| - 1
      ensures NameOffset(partition, i) + |partition[i]| + |LIST_SEPARATOR| <= |message|
      ensures message[NameOffset(partition, i) + |partition[i]|..NameOffset(partition, i) + |partition[i]| + |LIST_SEPARATOR|]
        == LIST_SEPARATOR
    {
      var end := Start(LIST_SEPARATOR, partition, i) + |partition[i]|;
      JoinSepAfter(LIST_SEPARATOR, partition, i);
      SliceOfMiddle(MESSAGE_HEAD, list, tail, end, |LIST_SEPARATOR|);
    }
  }

  lemma SliceOfMiddle(a: string, b: string, c: string, s: nat, n: nat)
    requires s + n <= |b|
    ensures (a + b + c)[|a| + s..|a| + s + n] == b[s..s + n]
  {
  }
}

=== FILE: seqs.dfy ===
/** Linear search for the first element of a sequence satisfying a test. */
module Seqs {
  import opened Wrappers

  /** The index of the first element of `s` for which `p` holds, if any. */
  function FirstIndex<T>(s: seq<T>, p: T -> bool): (r: Option<nat>)
    ensures r.Some? ==> r.value < |s| && p(s[r.value])
    ensures r.Some? ==> forall j :: 0 <= j < r.value ==> !p(s[j])
    ensures r.None? <==> forall j :: 0 <= j < |s| ==> !p(s[j])
  {
    if |s| == 0 then None
    else if p(s[0]) then Some(0)
    else match FirstIndex(s[1..], p)
      case None => None
      case Some(i) => Some(i + 1)
  }

  /** Searching a concatenation finds a match in the front part first, and
      only otherwise looks into the back part, shifted by the front's length. */
  lemma {:induction false} FirstIndexConcat<T>(a: seq<T>, b: seq<T>, p: T -> bool)
    ensures FirstIndex(a + b, p) ==
      match FirstIndex(a, p)
      case Some(i) => Some(i)
      case None =>
        match FirstIndex(b, p)
        case Some(j) => Some(|a| + j)
        case None => None
  {
    if |a| == 0 {
      assert a + b == b;
    } else {
      assert (a + b)[0] == a[0];
      assert (a + b)[1..] == a[1..] + b;
      FirstIndexConcat(a[1..], b, p);
    }
  }
}

=== FILE: strings.dfy ===
/** String operations the core relies on: Python's substring test `x in s`,
    `sep.join(parts)`, and `str()` of an integer. */
module Strings {
  import opened Wrappers

  // ---------------------------------------------------------------------------
  // Substring test
  // ---------------------------------------------------------------------------

  /** `needle` sits in `hay` starting at index `i`. */
  ghost predicate OccursAt(needle: string, hay: string, i: int) {
    0 <= i && i + |needle| <= |hay| && hay[i..i + |needle|] == needle
  }

  ghost predicate IsSubstring(needle: string, hay: string) {
    exists i :: OccursAt(needle, hay, i)
  }

  /** Scans `hay` from index `k` onwards for an occurrence of `needle`. */
  function ContainsFrom(hay: string, needle: string, k: nat): (r: bool)
    ensures r <==> exists i :: k <= i && OccursAt(needle, hay, i)
    decreases |hay| - k
  {
    if k + |needle| > |hay| then false
    else if hay[k..k + |needle|] == needle then assert OccursAt(needle, hay, k); true
    else ContainsFrom(hay, needle, k + 1)
  }

  /** Python's `needle in hay` on strings; the empty needle is in every string. */
  function Contains(hay: string, needle: string): (r: bool)
    ensures r <==> IsSubstring(needle, hay)
  {
    ContainsFrom(hay, needle, 0)
  }

  // ---------------------------------------------------------------------------
  // Join
  // ---------------------------------------------------------------------------

  /** Python's `sep.join(parts)`. */
  function Join(sep: string, parts: seq<string>): string
  {
    if |parts| == 0 then ""
    else if |parts| == 1 then parts[0]
    else parts[0] + sep + Join(sep, parts[1..])
  }

  /** Where `parts[i]` starts in the joined string: every earlier part
      followed by one separator. */
  function Start(sep: string, parts: seq<string>, i: nat): nat
    requires i <= |parts|
  {
    if i == 0 then 0 else |parts[0]| + |sep| + Start(sep, parts[1..], i - 1)
  }

  /** Each separator-terminated slot is exactly one part longer than the last. */
  lemma {:induction false} StartStep(sep: string, parts: seq<string>, i: nat)
    requires i < |parts|
    ensures Start(sep, parts, i + 1) == Start(sep, parts, i) + |parts[i]| + |sep|
  {
    if i > 0 {
      StartStep(sep, parts[1..], i - 1);
    }
  }

  /** The joined string is as long as all parts and the separators between them. */
  lemma {:induction false} JoinLength(sep: string, parts: seq<string>)
    requires |parts| > 0
    ensures |Join(sep, parts)| + |sep| == Start(sep, parts, |parts|)
  {
    if |parts| > 1 {
      JoinLength(sep, parts[1..]);
    }
  }

  /** Part `i` occupies the slot starting at `Start(i)`. */
  lemma {:induction false} JoinPartAt(sep: string, parts: seq<string>, i: nat)
    requires i < |parts|
    ensures Start(sep, parts, i) + |parts[i]| <= |Join(sep, parts)|
    ensures Join(sep, parts)[Start(sep, parts, i)..Start(sep, parts, i) + |parts[i]|] == parts[i]
  {
    var j := Join(sep, parts);
    if |parts| > 1 {
      var rest := parts[1..];
      var h := |parts[0]| + |sep|;
      assert j == parts[0] + sep + Join(sep, rest);
      if i > 0 {
        JoinPartAt(sep, rest, i - 1);
        var s := Start(sep, rest, i - 1);
        assert rest[i - 1] == parts[i];
        assert j[h..] == Join(sep, rest);
        assert j[h + s..h + s + |parts[i]|] == j[h..][s..s + |parts[i]|];
      }
    }
  }

  /** A separator follows part `i` whenever another part comes after it. */
  lemma {:induction false} JoinSepAfter(sep: string, parts: seq<string>, i: nat)
    requires i < |parts| - 1
    ensures Start(sep, parts, i) + |parts[i]| + |sep| <= |Join(sep, parts)|
    ensures Join(sep, parts)[Start(sep, parts, i) + |parts[i]|..Start(sep, parts, i) + |parts[i]| + |sep|] == sep
  {
    var j := Join(sep, parts);
    var rest := parts[1..];
    var h := |parts[0]| + |sep|;
    assert j == parts[0] + sep + Join(sep, rest);
    if i > 0 {
      JoinSepAfter(sep, rest, i - 1);
      var e := Start(sep, rest, i - 1) + |parts[i]|;
      assert rest[i - 1] == parts[i];
      assert j[h..] == Join(sep, rest);
      assert j[h + e..h + e + |sep|] == j[h..][e..e + |sep|];
    }
  }

  /** The layout of a join: part `i` occupies the slot starting at
      `Start(i)`, a separator follows every part but the last, and nothing
      else is in the string. This determines the joined string entirely. */
  lemma JoinLayout(sep: string, parts: seq<string>)
    requires |parts| > 0
    ensures |Join(sep, parts)| + |sep| == Start(sep, parts, |parts|)
    ensures forall i :: 0 <= i < |parts| ==>
      Start(sep, parts, i) + |parts[i]| <= |Join(sep, parts)| &&
      Join(sep, parts)[Start(sep, parts, i)..Start(sep, parts, i) + |parts[i]|] == parts[i]
    ensures forall i :: 0 <= i < |parts| - 1 ==>
      Start(sep, parts, i) + |parts[i]| + |sep| <= |Join(sep, parts)| &&
      Join(sep, parts)[Start(sep, parts, i) + |parts[i]|..Start(sep, parts, i) + |parts[i]| + |sep|] == sep
  {
    JoinLength(sep, parts);
    forall i | 0 <= i < |parts| {
      JoinPartAt(sep, parts, i);
    }
    forall i | 0 <= i < |parts| - 1 {
      JoinSepAfter(sep, parts, i);
    }
  }

  /** Parts appear in the joined string in input order, each wholly before the next. */
  lemma {:induction false} JoinPreservesOrder(sep: string, parts: seq<string>, i: nat, k: nat)
    requires i < k < |parts|
    ensures Start(sep, parts, i) + |parts[i]| + |sep| <= Start(sep, parts, k)
    decreases k - i
  {
    StartStep(sep, parts, i);
    if i + 1 < k {
      JoinPreservesOrder(sep, parts, i + 1, k);
      StartStep(sep, parts, i + 1);
    }
  }

  /** Every part is a substring of the join. */
  lemma JoinContainsEvery(sep: string, parts: seq<string>)
    ensures forall i :: 0 <= i < |parts| ==> Contains(Join(sep, parts), parts[i])
  {
    if |parts| > 0 {
      JoinLayout(sep, parts);
      forall i | 0 <= i < |parts|
        ensures Contains(Join(sep, parts), parts[i])
      {
        assert OccursAt(parts[i], Join(sep, parts), Start(sep, parts, i));
      }
    }
  }

  /** A single part is joined without any separator. */
  lemma JoinSingleton(sep: string, name: string)
    ensures Join(sep, [name]) == name
  {
  }

  // ---------------------------------------------------------------------------
  // Decimal rendering of integers
  // ---------------------------------------------------------------------------

  predicate IsDigit(c: char) {
    '0' <= c <= '9'
  }

  function DigitChar(d: nat): (c: char)
    requires d < 10
    ensures IsDigit(c)
  {
    (('0' as int) + d) as char
  }

  function DigitValue(c: char): (d: nat)
    requires IsDigit(c)
    ensures d < 10 && DigitChar(d) == c
  {
    (c as int) - ('0' as int)
  }

  predicate AllDigits(s: string) {
    forall i :: 0 <= i < |s| ==> IsDigit(s[i])
  }

  /** Python's `str(n)` for a non-negative int: no sign and no leading zero. */
  function NatToDecimal(n: nat): (s: string)
    ensures |s| >= 1 && AllDigits(s)
    ensures s[0] == '0' ==> n == 0 && s == "0"
    decreases n
  {
    if n < 10 then [DigitChar(n)] else NatToDecimal(n / 10) + [DigitChar(n % 10)]
  }

  /** Reads a string of decimal digits, most significant first. */
  function DecimalToNat(s: string): nat
    requires AllDigits(s)
  {
    if |s| == 0 then 0 else 10 * DecimalToNat(s[..|s| - 1]) + DigitValue(s[|s| - 1])
  }

  /** Python's `str(n)` (equivalently f"{n}") for any int. */
  function IntToDecimal(n: int): (s: string)
    ensures |s| >= 1
    ensures s[0] == '-' <==> n < 0
    ensures forall i :: 0 <= i < |s| ==> IsNumeralChar(s[i])
    ensures var digits := if n < 0 then s[1..] else s;
      |digits| >= 1 && AllDigits(digits) && (digits[0] == '0' ==> n == 0)
  {
    if n < 0 then "-" + NatToDecimal(-n) else NatToDecimal(n)
  }

  /** Characters that can occur in `IntToDecimal(n)`. */
  predicate IsNumeralChar(c: char) {
    IsDigit(c) || c == '-'
  }

  /** Python's `int(s)` restricted to the form `str` produces: an optional
      minus sign followed by at least one digit. */
  function ParseInt(s: string): (r: Option<int>)
  {
    if |s| >= 2 && s[0] == '-' && AllDigits(s[1..]) then
      var magnitude: int := DecimalToNat(s[1..]); Some(-magnitude)
    else if |s| >= 1 && AllDigits(s) then Some(DecimalToNat(s))
    else None
  }

  lemma {:induction false} NatDecimalRoundTrip(n: nat)
    ensures DecimalToNat(NatToDecimal(n)) == n
    decreases n
  {
    if n >= 10 {
      var s := NatToDecimal(n);
      NatDecimalRoundTrip(n / 10);
      assert s[..|s| - 1] == NatToDecimal(n / 10);
    }
  }

  /** `int(str(n)) == n`, and `str` never emits a character outside a numeral. */
  lemma IntDecimalRoundTrip(n: int)
    ensures ParseInt(IntToDecimal(n)) == Some(n)
    ensures forall i :: 0 <= i < |IntToDecimal(n)| ==> IsNumeralChar(IntToDecimal(n)[i])
  {
    var s := IntToDecimal(n);
    if n < 0 {
      NatDecimalRoundTrip(-n);
      assert s[1..] == NatToDecimal(-n);
    } else {
      NatDecimalRoundTrip(n);
    }
  }
}

=== FILE: wrappers.dfy ===
/** Option and Result, shared by every module of the model. */
module Wrappers {

  /** A value that may be absent: Python's `None` or a located value. */
  datatype Option<+T> = None | Some(value: T)

  /** Either the value an operation returns or the exception it raises. */
  datatype Result<+T, +E> = Success(value: T) | Failure(error: E)
}
